=== FILE: README.md ===
# EKG preprocessing and MIT-BIH training-data bookkeeping, in Dafny

This project models the integer and index bookkeeping of the EKG
anomaly-detection backend (`ekg-ai-reader`): the parts that surround the
numeric libraries and decide which samples go where.

* **Signal conditioning** (`backend/model/preprocess.py`):
  `standardize` over exact reals, the identity branch and length/rate rule
  of `resample_to`, and `make_windows_fixed`, which cuts a signal into
  fixed-length windows `step` samples apart with no trailing partial window.
* **Training-data preparation** (`backend/data/download_mitbih.py`): the
  lead choice, the filtering of normal beats (`N` and `.`), the clamped
  slice around each beat that is kept only when it spans at least 80% of
  four seconds, the joining of all segments into one signal with silent
  gaps between consecutive segments, and the aggregation over the ten
  normal-rhythm records, which aborts when fetching a record raises.

Python semantics the code relies on are modelled explicitly in `Builtins`:
`int()` truncates toward zero, slicing normalises and clamps its bounds,
and `range` raises on a zero step and otherwise yields exactly the
candidates `start + k*step` on the near side of `stop`. Exceptions become
a `Result` with a `Fault`.

Files and modules:

| file | module | contents |
|---|---|---|
| `builtins.dfy` | `Builtins` | `Result`, `Option`, `Fault`; `Trunc`, `Slice`, `Range` |
| `signals.dfy` | `Signals` | `Signal`, `Sum`, `Mean`, `Variance`, the affine map `(s - c) / d` |
| `seqs.dfy` | `Seqs` | order-preserving `Select` with its selected positions, `Map`, `Flatten` |
| `gap_join.dfy` | `GapJoin` | segments joined with a gap between consecutive ones; length and layout |
| `preprocess.dfy` | `Preprocess` | `Standardize`, `ResampleTo`, `Windows`, `MakeWindowsFixed` |
| `mitbih.dfy` | `MitBih` | lead choice, normal beats, segment bounds, extraction, training CSV, the run |

## Model

| member | source | states |
|---|---|---|
| `Builtins.Trunc` | backend/model/preprocess.py:34-35 | `int(x)` is the integer on the zero side of `x` within distance < 1: `n <= x < n + 1` for `x >= 0`, `n - 1 < x <= n` for `x <= 0` |
| `Builtins.Slice` | backend/model/preprocess.py:38 | Python slicing never raises, is no longer than the sequence, is the plain slice when `0 <= a <= b <= len`, and is empty when `0 <= b <= a` |
| `Builtins.Range` | backend/model/preprocess.py:37 | `range` raises exactly when the step is 0; element k is `start + k*step` |
| `Builtins.RangeLengthExact` | backend/model/preprocess.py:37 | the k-th candidate is produced exactly when it lies below `stop` (positive step) or above it (negative step) |
| `Preprocess.Standardize` | backend/model/preprocess.py:20-23 | standardisation keeps the signal's length |
| `Preprocess.StandardizePreservesOrder` | backend/model/preprocess.py:20-23 | for every pair of samples, `<=` and `<` hold after standardising exactly when they held before (the divisor `std + 1e-8` is positive) |
| `Preprocess.StandardizeConstant` | backend/model/preprocess.py:20-23 | a constant signal maps to all zeros, whatever the standard deviation |
| `Preprocess.StandardizeZeroMean` | backend/model/preprocess.py:20-23 | the standardised samples sum to zero and have mean zero |
| `Signals.CenteredVariance` | backend/model/preprocess.py:21-23 | a signal with its mean removed and divided by `d` has mean 0, so its variance is its mean square |
| `Signals.AffineVariance` | backend/model/preprocess.py:21-23 | subtracting the mean and dividing by `d` multiplies the population variance by `(1 / d)^2` |
| `Preprocess.DividedVariance` | backend/model/preprocess.py:21-23 | dividing the centred signal by any `d` above its standard deviation `sd` leaves variance `(sd / d)^2`, which is below 1 |
| `Preprocess.StandardizeVariance` | backend/model/preprocess.py:20-23 | when `std` is the signal's population standard deviation, the output variance is `(std / (std + 1e-8))^2`, which is below 1 because of the epsilon and 0 for a flat signal |
| `Preprocess.StandardizeInvertible` | backend/model/preprocess.py:20-23 | each original sample is recovered as `z * (std + 1e-8) + mean` |
| `Preprocess.ResampleTo` | backend/model/preprocess.py:26-30 | equal rates return the input unchanged with rate `fs_in`; every success reports rate `fs_out`; otherwise a zero input rate raises, and the call succeeds exactly when `int(len * fs_out / fs_in) >= 1`, with that many samples |
| `Preprocess.ResampledDuration` | backend/model/preprocess.py:29-30 | for positive rates the output length n satisfies `n * fs_in <= len * fs_out < (n + 1) * fs_in` |
| `Preprocess.Windows` | backend/model/preprocess.py:36-39 | the loop's `range` raises `ZeroStep` exactly when the step is 0; the only other failure is `np.array` refusing slices of unequal length; a success is a rectangular list of windows |
| `Preprocess.MakeWindowsFixed` | backend/model/preprocess.py:33-39 | windowing raises `ZeroStep` exactly when `int(step_sec * fs)` is 0, otherwise fails only on ragged windows, and a success is rectangular |
| `Preprocess.WholeWindowsStack` | backend/model/preprocess.py:36-39 | with `win >= 0` and `step > 0` every slice is a whole window, so stacking never raises |
| `Preprocess.MakeWindowsFixedStacks` | backend/model/preprocess.py:33-39 | when `win_sec * fs >= 0` and `step_sec * fs >= 1` windowing always succeeds |
| `Preprocess.NegativeStepPartialWindow` | backend/model/preprocess.py:34-39 | three samples with `win = 5` and `step = -1` give one partial window of three samples and no error, even though the signal is shorter than a window |
| `Preprocess.NegativeWindowRaises` | backend/model/preprocess.py:34-39 | five samples at 1 Hz with `win_sec = -2` and `step_sec = 1` give slices of 3 and 0 samples, and `np.array` raises |
| `Preprocess.WindowAt` | backend/model/preprocess.py:37-38 | window k exists exactly when `k*step + win <= len`, and then it is `signal[k*step .. k*step + win]` |
| `Preprocess.WindowsAreWholeSlices` | backend/model/preprocess.py:33-39 | with `win >= 0` and `step > 0` there are `(len - win) / step + 1` windows when `len >= win` and none otherwise; every window is a whole slice starting at `k*step`, and every whole slice at a multiple of `step` is produced |
| `Preprocess.WindowsHaveFixedLength` | backend/model/preprocess.py:37-38 | every window has exactly `win` samples, lies inside the signal and starts `k*step` samples in |
| `Preprocess.WindowsOverlap` | backend/model/preprocess.py:32-38 | the last `win - step` samples of window k are the first `win - step` samples of window k + 1 |
| `Preprocess.ZeroStepRaises` | backend/model/preprocess.py:35-37 | when `step_sec * fs` is in `[0, 1)` the step truncates to 0 and windowing raises |
| `Preprocess.DefaultWindowing` | backend/model/preprocess.py:33-37 | at 250 Hz the defaults are 500-sample windows every 250 samples and never raise; a signal of n samples gives `(n - 500) / 250 + 1` windows when `n >= 500` and none below; every window has 500 samples and consecutive windows share 250 |
| `GapJoin.Join` | backend/data/download_mitbih.py:93-97 | no segments join to nothing; the first segment is a prefix of the result; every joined element comes from a segment or the gap |
| `GapJoin.JoinLength` | backend/data/download_mitbih.py:93-97 | k joined segments have the sum of their lengths plus `gap * (k - 1)` samples, and no segments give 0 |
| `GapJoin.JoinLayout` | backend/data/download_mitbih.py:93-97 | segment i sits unchanged at offset `sum_{j<i}(len_j + gap)`, and each gap lies between the end of one segment and the start of the next |
| `GapJoin.JoinLoop` | backend/data/download_mitbih.py:93-97 | the extend-then-gap-unless-last loop builds exactly the gap-joined sequence |
| `MitBih.SelectLead` | backend/data/download_mitbih.py:54-57 | a lead exists exactly when the record has a channel; it is channel `min(1, n_sig - 1)`: channel 1 when there is more than one channel, else channel 0 |
| `MitBih.NormalBeats` | backend/data/download_mitbih.py:62-65 | there are never more beat positions than annotations, and each is the sample of some `N` or `.` annotation |
| `MitBih.NormalBeatsAreTheNormalAnnotations` | backend/data/download_mitbih.py:62-65 | the beat positions are the samples of exactly the `N`/`.` annotations, in strictly increasing annotation order, never more than the annotations |
| `MitBih.NormalBeatLoop` | backend/data/download_mitbih.py:62-65 | the annotation loop computes exactly the normal beat positions |
| `MitBih.SegmentBounds` | backend/data/download_mitbih.py:72-73 | clamped bounds satisfy `0 <= start`, `end <= len` and `end - start <= seg`; away from the edges they are exactly `beat -/+ seg//2` |
| `MitBih.SegmentsAround` | backend/data/download_mitbih.py:71-77 | no more segments than beats, and each segment is the clamped slice around some beat whose slice spans at least 80% of the nominal length |
| `MitBih.KeptSegmentShape` | backend/data/download_mitbih.py:72-77 | a kept segment is the plain slice `signal[start..end]` inside the signal, with `0.8 * seg <= length <= seg` |
| `MitBih.SegmentsFollowBeats` | backend/data/download_mitbih.py:71-78 | segment k is the slice around the k-th kept beat, kept beats are in beat order, a beat yields a segment exactly when its slice is long enough, and segments never outnumber beats |
| `MitBih.ExtractNormalSegments` | backend/data/download_mitbih.py:44-83 | a read failure or a record without channels gives no segments and 360 Hz; otherwise the record's rate and at most one segment per normal beat |
| `MitBih.ExtractedSegmentsAreNormalSlices` | backend/data/download_mitbih.py:53-79 | every extracted segment is a contiguous slice of the chosen lead around some normal beat, between 80% and 100% of `int(4 * fs)` samples |
| `MitBih.MitBihSegmentLengths` | backend/data/download_mitbih.py:68-77 | at 360 Hz the nominal length is 1440 samples and every kept segment has 1152 to 1440 samples |
| `MitBih.CreateTrainingCsv` | backend/data/download_mitbih.py:85-112 | building the table succeeds exactly when `int(0.1 * fs) >= 0` and `fs != 0`; the time column, the value column and the returned count have the same length |
| `MitBih.TrainingCsvLength` | backend/data/download_mitbih.py:90-112 | the returned count is `sum(len_i) + int(0.1 * fs) * (k - 1)` for k segments (0 for none) |
| `MitBih.TrainingCsvTimes` | backend/data/download_mitbih.py:100 | sample i of the time column is `1000 * i / fs` milliseconds (`time * fs == 1000 * i`) |
| `MitBih.TrainingCsvLayout` | backend/data/download_mitbih.py:90-97 | segment i appears unchanged at offset `sum_{j<i}(len_j + gap)` and the gap after every segment but the last is all zeros |
| `MitBih.Collect` | backend/data/download_mitbih.py:132-145 | the aggregation raises exactly when some record's download (`requests.get` at line 34, or the file write) raises, and then with `RequestRaised` |
| `MitBih.CollectConcatenates` | backend/data/download_mitbih.py:136-145 | when no download raises, the aggregated list is the per-record lists concatenated in record order, a failed download contributing nothing |
| `MitBih.CollectNothing` | backend/data/download_mitbih.py:132-145 | when every download fails nothing is collected and the rate stays 360 Hz |
| `MitBih.CollectRate` | backend/data/download_mitbih.py:133-142 | when no download raises, the rate passed on is the one returned for the last successfully downloaded record |
| `MitBih.CollectLoop` | backend/data/download_mitbih.py:132-145 | the record loop computes exactly the ordered aggregation and rate |
| `MitBih.RunOver` | backend/data/download_mitbih.py:132-157 | the run ends in `Aborted` exactly when a download raises; in `NoSegments` (the line-157 message) exactly when the aggregation succeeded with nothing; in `Created` exactly when the aggregation is non-empty and building the table from the aggregated segments and rate succeeds, holding those segments, that rate, and the table and total the builder returned; in `Failed`, with the builder's error, otherwise |
| `MitBih.PositiveRateRunCreates` | backend/data/download_mitbih.py:147-150 | when no download raises and the aggregation is non-empty with a positive rate, the run creates the CSV from exactly the aggregated segments |
| `MitBih.NoDownloadsNoCsv` | backend/data/download_mitbih.py:136-157 | when each of the ten downloads fails with a non-200 status the run writes no CSV |
| `MitBih.RunTotal` | backend/data/download_mitbih.py:147-153 | the reported total of a created CSV is `sum(len_i) + int(0.1 * rate) * (k - 1)` for its k aggregated segments |
| `MitBih.OfflineRunAborts` | backend/data/download_mitbih.py:132-157 | when every request raises, the run aborts and never reaches the "no normal segments" message |
| `MitBih.Skipping` | backend/data/download_mitbih.py:34-41 | treating a raising download as a failed one: the result never raises, a raising download becomes `DownloadFailed`, and every other download is unchanged |
| `MitBih.RunSkippingRaised` | backend/data/download_mitbih.py:136-157 | with raising downloads skipped, the run never aborts |
| `MitBih.OfflineRunReportsNoSegments` | backend/data/download_mitbih.py:136-157 | with raising downloads skipped, a run in which no record was fetched ends with no CSV |

## Code and comments

- `standardize` is commented as scaling the signal "between 0 and 1", but the code is a z-score: it subtracts the mean and divides by the standard deviation plus `1e-8`. The model follows the code, so outputs can be negative and exceed 1; what is bounded is the variance (`StandardizeVariance`).
- With a positive step, `make_windows_fixed` returns an empty array (not an error) for a signal shorter than one window, because `range(0, len - win + 1, step)` is then empty. A negative step does not give this guarantee: three samples with `win = 5` and `step = -1` give `range(0, -1, -1) == [0]`, and so one partial window of three samples, with no error (`NegativeStepPartialWindow`). It raises for a zero step, and also when the slices differ in length: a negative window length (`win_sec * fs <= -1`) or a negative step can make slices clamp to different lengths, and `np.array` refuses such ragged rows (NumPy 1.24 and later; earlier versions built an object array with a warning). `NegativeWindowRaises` gives an input.
- `extract_normal_segments` comments channel 1 as "Lead II" and channel 0 as "Lead I" (lines 53-57). Which physical lead a channel holds is set by each record's header, and the MIT-BIH headers of the ten records used list the modified lead II (MLII) as signal 0 and a chest lead (V1, V2 or V5) as signal 1 (100.hea lists MLII, then V5). So for two-channel records the code picks the chest lead. The model follows the code and names channels by index only; the headers are not part of this model.

## Findings

| source | as written | input that shows it | evidently intended | confidence | as-written member | corrected member |
|---|---|---|---|---|---|---|
| backend/data/download_mitbih.py:34-41 | `requests.get` and the file write are not guarded, nor is the call at line 138, so an exception while fetching a record escapes `main` and aborts the whole run | no network connection: every request raises | a record that cannot be fetched is skipped like one with a non-200 status, and a run that fetched nothing prints "No normal segments extracted. Check your internet connection and try again." | not executed | `MitBih.OfflineRunAborts` | `MitBih.RunSkippingRaised`, `MitBih.OfflineRunReportsNoSegments` |

## Left out

- `bandpass` and `notch_filter`: thin wrappers over scipy's filter design and zero-phase filtering, with floating-point cutoff arithmetic.
- `Preprocess.ResampleTo`: the sample values of `scipy.signal.resample` are an opaque parameter `valueAt(signal, n, k)`; only the output length and rate are modelled. An output of fewer than one sample is treated as the resampler's refusal (`BadResampleLength`).
- `Preprocess.Standardize`: `np.std` is a nonnegative parameter `sd` because square roots of reals are not modelled; `StandardizeVariance` ties it to the signal by requiring `sd * sd` to be the population variance, and then states the output variance exactly.
- Floating point: all numbers are exact reals. `win_sec * fs`, `0.1 * fs`, `4 * fs` and `1000 / fs` are exact products and quotients, and `end - start >= seg * 0.8` is the exact comparison `5 * (end - start) >= 4 * seg`. Rounding of these products, NaN and infinities are not modelled.
- `np.array(windows)`: the two-dimensional shape is not modelled, only the ragged-row error it raises (`RaggedArray`). The trailing channel axis added by the training scripts is shape bookkeeping outside this core.
- `download_mitbih_record` (network and file-existence checks): its outcome is the `fetch` parameter of the run. It either raises (`DownloadRaised`: no connection, or the file write failed), returns `False` on a non-200 status (`DownloadFailed`), or returns `True`, after which the record is read (`Downloaded`).
- Reading records with wfdb: the result of `rdrecord`/`rdann` is `Option<RecordFiles>`, `None` for a read that raised. The annotation is a sequence of (sample, symbol) pairs, since wfdb's two parallel arrays have equal length.
- Exceptions inside `extract_normal_segments` other than a failed read and a record without channels fall back to the same `([], 360)` result in the source and are not enumerated.
- CSV writing, printing and the `wfdb` import check in `main`: I/O. The table written is modelled as `TrainingTable` (time and value columns).
- `backend/data/create_test_data.py` (random synthetic waveforms), the training scripts, the autoencoder, the Flask routes, the demo model and the frontend: outside this core.
- Upload parsing, reconstruction-error scoring, feature extraction and the hybrid normal/abnormal decision are not present in these source files and are not modelled.

=== FILE: builtins.dfy ===
/** The parts of Python's built-in semantics that the preprocessing and
    data-preparation code leans on: `int()` applied to a number, slicing a
    sequence with a unit step, and `range` with an explicit step, together
    with the exceptions those (and numpy) raise along the modelled paths. */
module Builtins {

  /** The exceptions the modelled code can raise. */
  datatype Fault =
    | ZeroStep           // `range(..., 0)` raises ValueError
    | ZeroDivision       // a rate of zero used as a divisor
    | NegativeDimension  // `np.zeros(n)` with n < 0 raises ValueError
    | BadResampleLength  // the FFT resampler refuses an output of fewer than one sample
    | RaggedArray        // `np.array` of rows with unequal lengths raises ValueError
    | RequestRaised      // fetching a record raised (no connection, or the file write failed)

  /** A computation that either yields a value or raises. */
  datatype Result<+T> = Ok(value: T) | Err(fault: Fault) {
    predicate IsFailure() {
      Err?
    }

    function PropagateFailure<U>(): Result<U>
      requires Err?
    {
      Err(fault)
    }

    function Extract(): T
      requires Ok?
    {
      value
    }
  }

  datatype Option<+T> = None | Some(value: T)

  /** `int(x)` for a number `x`: truncation toward zero. The two ensures
      clauses pin the result down uniquely on each side of zero. */
  function Trunc(x: real): (n: int)
    ensures 0.0 <= x ==> 0 <= n && n as real <= x < n as real + 1.0
    ensures x <= 0.0 ==> n <= 0 && n as real - 1.0 < x <= n as real
  {
    if x >= 0.0 then x.Floor else -((-x).Floor)
  }

  /** Python's normalisation of one slice bound against a sequence of
      length `n`: negative bounds count from the end, and every bound is
      clamped into `[0, n]`. */
  function SliceBound(i: int, n: nat): (b: nat)
    ensures b <= n
    ensures 0 <= i <= n ==> b == i
    ensures i < 0 && 0 <= i + n ==> b == i + n
  {
    if i < 0 then (if i + n < 0 then 0 else i + n)
    else if i > n then n
    else i
  }

  /** `s[a:b]`: never raises, empty when the normalised bounds cross. */
  function Slice<T>(s: seq<T>, a: int, b: int): (r: seq<T>)
    ensures |r| <= |s|
    ensures 0 <= a <= b <= |s| ==> r == s[a..b]
    ensures 0 <= b <= a ==> r == []
  {
    var lo := SliceBound(a, |s|);
    var hi := SliceBound(b, |s|);
    if lo < hi then s[lo..hi] else []
  }

  /** The number of elements of `range(start, stop, step)` for a non-zero step. */
  function RangeLength(start: int, stop: int, step: int): nat
    requires step != 0
  {
    if step > 0 then
      (if stop <= start then 0 else (stop - start - 1) / step + 1)
    else
      (if start <= stop then 0 else (start - stop - 1) / (-step) + 1)
  }

  /** `list(range(start, stop, step))`; a zero step raises. */
  function Range(start: int, stop: int, step: int): (r: Result<seq<int>>)
    ensures r.Err? <==> step == 0
    ensures r.Ok? ==> forall k :: 0 <= k < |r.value| ==> r.value[k] == start + k * step
  {
    if step == 0 then Err(ZeroStep)
    else Ok(seq(RangeLength(start, stop, step), k => start + k * step))
  }

  /** Python documents `range` by membership: with a positive step the k-th
      candidate `start + k*step` is produced exactly while it is below
      `stop`; with a negative step exactly while it is above `stop`. The
      closed-form length agrees with that definition for every k. */
  lemma {:induction false} RangeLengthExact(start: int, stop: int, step: int, k: nat)
    requires step != 0
    ensures step > 0 ==> (k < RangeLength(start, stop, step) <==> start + k * step < stop)
    ensures step < 0 ==> (k < RangeLength(start, stop, step) <==> start + k * step > stop)
  {
    if step > 0 {
      PositiveStepMembership(stop - start, step, k);
    } else {
      PositiveStepMembership(start - stop, -step, k);
    }
  }

  /** For d > 0: k < (span - 1)/d + 1 exactly when k*d < span (and no k when span <= 0). */
  lemma PositiveStepMembership(span: int, d: int, k: nat)
    requires d > 0
    ensures (if span <= 0 then 0 else (span - 1) / d + 1) > k <==> k * d < span
  {
    if span > 0 {
      var q := (span - 1) / d;
      var rem := (span - 1) % d;
      assert span - 1 == q * d + rem && 0 <= rem < d;
      if k <= q {
        assert k * d <= q * d by { MulMono(k, q, d); }
      } else {
        assert (q + 1) * d <= k * d by { MulMono(q + 1, k, d); }
      }
    } else {
      assert k * d >= 0;
    }
  }

  lemma MulMono(a: int, b: int, d: int)
    requires a <= b && d >= 0
    ensures a * d <= b * d
  {
    assert b * d - a * d == (b - a) * d;
  }
}

=== FILE: gap_join.dfy ===
/** Laying segments end to end with a fixed separator between consecutive
    segments and none after the last, as the training-file builder does
    when it joins extracted beats with silent gaps. */
module GapJoin {

  /** The segments in order, `gap` between each consecutive pair. */
  function Join<T>(segs: seq<seq<T>>, gap: seq<T>): (r: seq<T>)
    ensures |segs| == 0 ==> r == []
    ensures |segs| > 0 ==> segs[0] <= r
    ensures forall x :: x in r ==> x in gap || exists i :: 0 <= i < |segs| && x in segs[i]
  {
    if |segs| == 0 then []
    else if |segs| == 1 then segs[0]
    else Join(segs[..|segs| - 1], gap) + gap + segs[|segs| - 1]
  }

  /** The total number of elements over all segments. */
  function SumLengths<T>(segs: seq<seq<T>>): nat
  {
    if |segs| == 0 then 0 else SumLengths(segs[..|segs| - 1]) + |segs[|segs| - 1]|
  }

  /** Where segment i begins in the joined sequence: after every earlier
      segment and the gap that follows each of them. */
  function Offset<T>(segs: seq<seq<T>>, gapLen: nat, i: nat): nat
    requires i <= |segs|
  {
    SumLengths(segs[..i]) + i * gapLen
  }

  /** k segments joined by k - 1 gaps: the joined length is the segment
      lengths plus one gap per consecutive pair, and 0 for no segments. */
  lemma {:induction false} JoinLength<T>(segs: seq<seq<T>>, gap: seq<T>)
    ensures |Join(segs, gap)| == if |segs| == 0 then 0 else SumLengths(segs) + |gap| * (|segs| - 1)
  {
    if |segs| > 1 {
      var n := |segs|;
      JoinLength(segs[..n - 1], gap);
      assert |gap| * (n - 1) == |gap| * (n - 2) + |gap|;
    } else if |segs| == 1 {
      assert segs[..0] == [];
    }
  }

  /** Offsets advance by one segment and one gap at a time. */
  lemma OffsetStep<T>(segs: seq<seq<T>>, gapLen: nat, i: nat)
    requires i < |segs|
    ensures Offset(segs, gapLen, i + 1) == Offset(segs, gapLen, i) + |segs[i]| + gapLen
  {
    assert segs[..i + 1][..i] == segs[..i];
  }

  /** When there is at least one segment, the joined sequence ends exactly
      one gap before the offset of a further segment would be. */
  lemma JoinEndsBeforeLastGap<T>(segs: seq<seq<T>>, gap: seq<T>)
    requires |segs| > 0
    ensures |Join(segs, gap)| + |gap| == Offset(segs, |gap|, |segs|)
  {
    JoinLength(segs, gap);
    assert segs[..|segs|] == segs;
  }

  /** Segment i occupies `[Offset(i), Offset(i) + |segs[i]|)` in the joined
      sequence, and every gap sits between the end of one segment and the
      offset of the next. */
  lemma {:induction false} JoinLayout<T>(segs: seq<seq<T>>, gap: seq<T>, i: nat)
    requires i < |segs|
    ensures Offset(segs, |gap|, i) + |segs[i]| <= |Join(segs, gap)|
    ensures Join(segs, gap)[Offset(segs, |gap|, i)..Offset(segs, |gap|, i) + |segs[i]|] == segs[i]
    ensures i + 1 < |segs| ==>
              Offset(segs, |gap|, i) + |segs[i]| + |gap| <= |Join(segs, gap)| &&
              Join(segs, gap)[Offset(segs, |gap|, i) + |segs[i]|..Offset(segs, |gap|, i) + |segs[i]| + |gap|] == gap
  {
    var n := |segs|;
    if i == n - 1 {
      JoinLast(segs, gap);
    } else {
      var init := segs[..n - 1];
      var ji := Join(init, gap);
      var off := Offset(segs, |gap|, i);
      assert init[..i] == segs[..i];
      assert init[i] == segs[i];
      JoinLayout(init, gap, i);
      assert Join(segs, gap) == ji + (gap + segs[n - 1]);
      JoinLength(init, gap);
      JoinEndsBeforeLastGap(init, gap);
      PrefixSlice(ji, gap + segs[n - 1], off, off + |segs[i]|);
      if i + 1 < n - 1 {
        PrefixSlice(ji, gap + segs[n - 1], off + |segs[i]|, off + |segs[i]| + |gap|);
      } else {
        OffsetStep(segs, |gap|, i);
        assert off + |segs[i]| == |ji|;
      }
    }
  }

  /** The last segment closes the joined sequence. */
  lemma JoinLast<T>(segs: seq<seq<T>>, gap: seq<T>)
    requires |segs| > 0
    ensures var off := Offset(segs, |gap|, |segs| - 1);
            off + |segs[|segs| - 1]| == |Join(segs, gap)| &&
            Join(segs, gap)[off..off + |segs[|segs| - 1]|] == segs[|segs| - 1]
  {
    var n := |segs|;
    if n == 1 {
      assert segs[..0] == [];
    } else {
      var init := segs[..n - 1];
      JoinEndsBeforeLastGap(init, gap);
      assert init[..n - 1] == segs[..n - 1];
    }
  }

  /** Slicing within the first part of a concatenation ignores the rest. */
  lemma PrefixSlice<T>(a: seq<T>, b: seq<T>, lo: int, hi: int)
    requires 0 <= lo <= hi <= |a|
    ensures (a + b)[lo..hi] == a[lo..hi]
  {
  }

  /** The loop that builds the joined sequence: extend by each segment, then
      by the gap unless that segment was the last. */
  method JoinLoop<T>(segs: seq<seq<T>>, gap: seq<T>) returns (combined: seq<T>)
    ensures combined == Join(segs, gap)
  {
    combined := [];
    var i := 0;
    while i < |segs|
      invariant 0 <= i <= |segs|
      invariant i == 0 ==> combined == []
      invariant 0 < i < |segs| ==> combined == Join(segs[..i], gap) + gap
      invariant 0 < i == |segs| ==> combined == Join(segs, gap)
    {
      assert segs[..i + 1][..i] == segs[..i];
      combined := combined + segs[i];
      if i < |segs| - 1 {
        combined := combined + gap;
      }
      i := i + 1;
      assert i == |segs| ==> segs[..i] == segs;
    }
  }
}

=== FILE: mitbih.dfy ===
/** The pure core of `backend/data/download_mitbih.py`: choosing the lead,
    picking the normal beats out of a record's annotations, cutting a
    clamped segment around each of them, joining all segments into one
    training signal with silent gaps, and aggregating records in order.
    Downloads and file reads are inputs; CSV writing and printing are not
    modelled. */
module MitBih {
  import opened Builtins
  import opened Signals
  import opened Seqs
  import opened GapJoin

  /** The MIT-BIH records with predominantly normal sinus rhythm, in the
      order they are downloaded and aggregated. */
  const NormalRecords: seq<string> := ["100", "101", "103", "105", "111", "113", "115", "117", "121", "123"]

  /** The MIT-BIH sampling rate, used as the starting rate and returned by
      segment extraction when reading a record fails. */
  const FallbackRate: real := 360.0

  /** A record as the reader yields it: one physical-unit signal per
      channel (the columns of `p_signal`; `n_sig` is their number) and the
      sampling rate in Hz. */
  datatype Record = Record(leads: seq<Signal>, fs: real)

  /** One annotation: the sample index it marks and its beat symbol. */
  datatype Beat = Beat(sample: int, symbol: string)

  /** What reading a downloaded record yields: the signals and the beat
      annotations, in annotation order. */
  datatype RecordFiles = RecordFiles(record: Record, annotation: seq<Beat>)

  /** The clamped index range `[start, end)` of the slice cut around a beat. */
  datatype Bounds = Bounds(start: int, end: int)

  /** The outcome of fetching one record: the request or the file write
      raised (nothing in the script catches that), the server answered with
      a status other than 200, or the files are in place and reading them
      either raised (`None`) or produced the record. */
  datatype Download = DownloadRaised | DownloadFailed | Downloaded(files: Option<RecordFiles>)

  /** The pure content of the training CSV: a time column in milliseconds
      and the combined signal. */
  datatype TrainingTable = TrainingTable(time: seq<real>, value: Signal)

  /** How a whole run ends: a download raised and the exception left the
      script, no segments (no CSV is written), a CSV built from the
      aggregated `segments` at `rate` with `total` samples (the script
      reports their number and `total`), or building the CSV raised. */
  datatype RunOutcome =
    | Aborted
    | NoSegments
    | Created(segments: seq<Signal>, rate: real, table: TrainingTable, total: nat)
    | Failed(fault: Fault)

  // ---------------------------------------------------------------------
  // Lead choice and normal beats

  /** Channel 1 (which the source's comment calls Lead II) when the record
      has more than one channel, else channel 0; indexing a channel of a
      record with none raises. */
  function SelectLead(rec: Record): (r: Option<Signal>)
    ensures r.Some? <==> |rec.leads| > 0
    ensures r.Some? ==> r.value == rec.leads[Min(1, |rec.leads| - 1)]
  {
    if |rec.leads| > 1 then Some(rec.leads[1])
    else if |rec.leads| == 1 then Some(rec.leads[0])
    else None
  }

  function Min(a: int, b: int): int
  {
    if a <= b then a else b
  }

  function Max(a: int, b: int): int
  {
    if a >= b then a else b
  }

  /** A normal beat (`N`) or an unannotated one assumed normal (`.`). */
  predicate IsNormalBeat(b: Beat)
  {
    b.symbol == "N" || b.symbol == "."
  }

  function SampleOf(b: Beat): int
  {
    b.sample
  }

  /** The sample positions of the normal beats, in annotation order. */
  function NormalBeats(ann: seq<Beat>): (r: seq<int>)
    ensures |r| <= |ann|
    ensures forall x :: x in r ==> exists b :: b in ann && IsNormalBeat(b) && b.sample == x
  {
    Map(Select(ann, IsNormalBeat), SampleOf)
  }

  /** Exactly the annotations whose symbol is `N` or `.` contribute their
      sample position, each once and in annotation order. */
  lemma NormalBeatsAreTheNormalAnnotations(ann: seq<Beat>)
    ensures |NormalBeats(ann)| <= |ann|
    ensures |SelectedPositions(ann, IsNormalBeat)| == |NormalBeats(ann)|
    ensures forall k :: 0 <= k < |NormalBeats(ann)| ==>
              SelectedPositions(ann, IsNormalBeat)[k] < |ann| &&
              NormalBeats(ann)[k] == ann[SelectedPositions(ann, IsNormalBeat)[k]].sample &&
              IsNormalBeat(ann[SelectedPositions(ann, IsNormalBeat)[k]])
    ensures forall k, l :: 0 <= k < l < |NormalBeats(ann)| ==>
              SelectedPositions(ann, IsNormalBeat)[k] < SelectedPositions(ann, IsNormalBeat)[l]
    ensures forall i :: 0 <= i < |ann| ==> (IsNormalBeat(ann[i]) <==> i in SelectedPositions(ann, IsNormalBeat))
  {
    SelectIsOrderedFilter(ann, IsNormalBeat);
  }

  /** The annotation loop: append the sample of every `N` or `.` beat. */
  method NormalBeatLoop(ann: seq<Beat>) returns (beats: seq<int>)
    ensures beats == NormalBeats(ann)
  {
    beats := [];
    var i := 0;
    while i < |ann|
      invariant 0 <= i <= |ann|
      invariant beats == NormalBeats(ann[..i])
    {
      assert ann[..i + 1][..i] == ann[..i];
      if IsNormalBeat(ann[i]) {
        beats := beats + [ann[i].sample];
      }
      i := i + 1;
    }
    assert ann[..i] == ann;
  }

  // ---------------------------------------------------------------------
  // Segments around beats

  /** `[max(0, beat - seg//2), min(n, beat + seg//2))`. Floor division by 2
      is Dafny's `/` (the two agree for a positive divisor). */
  function SegmentBounds(beat: int, seg: int, n: nat): (b: Bounds)
    ensures 0 <= b.start && b.end <= n
    ensures 0 <= seg ==> b.end - b.start <= seg
    ensures seg / 2 <= beat && beat + seg / 2 <= n ==> b == Bounds(beat - seg / 2, beat + seg / 2)
  {
    Bounds(Max(0, beat - seg / 2), Min(n, beat + seg / 2))
  }

  /** A slice is kept when it spans at least 80% of the nominal length,
      `end - start >= 0.8 * seg`, stated without fractions. */
  predicate Kept(b: Bounds, seg: int)
  {
    5 * (b.end - b.start) >= 4 * seg
  }

  function KeepsBeat(n: nat, seg: int): int -> bool
  {
    beat => Kept(SegmentBounds(beat, seg, n), seg)
  }

  /** `signal[start:end]` for the clamped bounds around `beat`. */
  function SegmentAround(sig: Signal, seg: int, beat: int): Signal
  {
    var b := SegmentBounds(beat, seg, |sig|);
    Slice(sig, b.start, b.end)
  }

  function CutAround(sig: Signal, seg: int): int -> Signal
  {
    beat => SegmentAround(sig, seg, beat)
  }

  /** The segment loop: for each beat, in order, its clamped slice when
      that slice is long enough. */
  function SegmentsAround(sig: Signal, beats: seq<int>, seg: int): (r: seq<Signal>)
    ensures |r| <= |beats|
    ensures forall x :: x in r ==>
              exists beat :: beat in beats && Kept(SegmentBounds(beat, seg, |sig|), seg) && x == SegmentAround(sig, seg, beat)
  {
    var kept := Select(beats, KeepsBeat(|sig|, seg));
    var r := Map(kept, CutAround(sig, seg));
    assert forall k :: 0 <= k < |r| ==> kept[k] in kept && r[k] == SegmentAround(sig, seg, kept[k]);
    r
  }

  /** A kept segment is the exact slice `signal[start..end]` of the signal,
      within its bounds, no longer than the nominal length and at least
      80% of it. */
  lemma KeptSegmentShape(sig: Signal, seg: int, beat: int)
    requires 0 <= seg
    requires KeepsBeat(|sig|, seg)(beat)
    ensures var b := SegmentBounds(beat, seg, |sig|);
            0 <= b.start <= b.end <= |sig| &&
            SegmentAround(sig, seg, beat) == sig[b.start..b.end] &&
            4 * seg <= 5 * |SegmentAround(sig, seg, beat)| &&
            |SegmentAround(sig, seg, beat)| <= seg
  {
  }

  /** The segments follow the beats: segment k is the slice around the k-th
      kept beat, kept beats appear in beat order, a beat's segment is
      produced exactly when its slice is long enough, and there are never
      more segments than beats. */
  lemma SegmentsFollowBeats(sig: Signal, beats: seq<int>, seg: int)
    ensures |SegmentsAround(sig, beats, seg)| <= |beats|
    ensures |SelectedPositions(beats, KeepsBeat(|sig|, seg))| == |SegmentsAround(sig, beats, seg)|
    ensures forall k :: 0 <= k < |SegmentsAround(sig, beats, seg)| ==>
              SelectedPositions(beats, KeepsBeat(|sig|, seg))[k] < |beats| &&
              SegmentsAround(sig, beats, seg)[k] ==
                SegmentAround(sig, seg, beats[SelectedPositions(beats, KeepsBeat(|sig|, seg))[k]])
    ensures forall k, l :: 0 <= k < l < |SegmentsAround(sig, beats, seg)| ==>
              SelectedPositions(beats, KeepsBeat(|sig|, seg))[k] < SelectedPositions(beats, KeepsBeat(|sig|, seg))[l]
    ensures forall i :: 0 <= i < |beats| ==>
              (Kept(SegmentBounds(beats[i], seg, |sig|), seg) <==> i in SelectedPositions(beats, KeepsBeat(|sig|, seg)))
  {
    SelectIsOrderedFilter(beats, KeepsBeat(|sig|, seg));
  }

  /** `extract_normal_segments`: the normal segments of the chosen lead and
      the record's rate, or no segments and 360 Hz when reading the record
      raised or it has no channel. */
  function ExtractNormalSegments(files: Option<RecordFiles>): (r: (seq<Signal>, real))
    ensures files.None? ==> r == ([], FallbackRate)
    ensures files.Some? && |files.value.record.leads| == 0 ==> r == ([], FallbackRate)
    ensures files.Some? && |files.value.record.leads| > 0 ==> r.1 == files.value.record.fs
    ensures files.Some? ==> |r.0| <= |NormalBeats(files.value.annotation)| <= |files.value.annotation|
  {
    match files
    case None => ([], FallbackRate)
    case Some(f) =>
      match SelectLead(f.record)
      case None => ([], FallbackRate)
      case Some(sig) =>
        (SegmentsAround(sig, NormalBeats(f.annotation), NominalLength(f.record.fs)), f.record.fs)
  }

  /** `int(4 * fs)`: four seconds of samples. */
  function NominalLength(fs: real): int
  {
    Trunc(4.0 * fs)
  }

  /** Every segment of a readable record with at least one channel and a
      nonnegative rate is a contiguous slice of the chosen lead around a
      normal beat, between 80% and 100% of `int(4 * fs)` samples long. */
  lemma ExtractedSegmentsAreNormalSlices(f: RecordFiles, k: nat)
    requires 0.0 <= f.record.fs
    requires |f.record.leads| > 0
    requires k < |ExtractNormalSegments(Some(f)).0|
    ensures var sig := SelectLead(f.record).value;
            var seg := NominalLength(f.record.fs);
            var beats := NormalBeats(f.annotation);
            exists i :: 0 <= i < |beats| &&
              var b := SegmentBounds(beats[i], seg, |sig|);
              0 <= b.start <= b.end <= |sig| &&
              ExtractNormalSegments(Some(f)).0[k] == sig[b.start..b.end] &&
              4 * seg <= 5 * (b.end - b.start) <= 5 * seg
  {
    var sig := SelectLead(f.record).value;
    var seg := NominalLength(f.record.fs);
    var beats := NormalBeats(f.annotation);
    var segs := SegmentsAround(sig, beats, seg);
    assert ExtractNormalSegments(Some(f)) == (segs, f.record.fs);
    SegmentsFollowBeats(sig, beats, seg);
    var i := SelectedPositions(beats, KeepsBeat(|sig|, seg))[k];
    SelectIsOrderedFilter(beats, KeepsBeat(|sig|, seg));
    assert 0 <= i < |beats|;
    assert KeepsBeat(|sig|, seg)(beats[i]);
    assert ExtractNormalSegments(Some(f)).0[k] == SegmentAround(sig, seg, beats[i]);
    KeptSegmentShape(sig, seg, beats[i]);
    var b := SegmentBounds(beats[i], seg, |sig|);
    assert 0 <= b.start <= b.end <= |sig|;
    assert ExtractNormalSegments(Some(f)).0[k] == sig[b.start..b.end];
  }

  /** At the MIT-BIH rate of 360 Hz the nominal segment is 1440 samples
      (720 either side of the beat) and a kept segment has between 1152 and
      1440 samples. */
  lemma MitBihSegmentLengths(sig: Signal, beat: int)
    requires KeepsBeat(|sig|, NominalLength(FallbackRate))(beat)
    ensures NominalLength(FallbackRate) == 1440
    ensures 1152 <= |SegmentAround(sig, 1440, beat)| <= 1440
  {
    assert 4.0 * FallbackRate == 1440.0;
    KeptSegmentShape(sig, 1440, beat);
  }

  // ---------------------------------------------------------------------
  // Training CSV

  function Zeros(n: nat): (z: Signal)
    ensures |z| == n && Constant(z, 0.0)
  {
    seq(n, _ => 0.0)
  }

  /** `create_training_csv`: the segments joined with `int(0.1 * fs)` zero
      samples between consecutive ones, a time column of `i * 1000 / fs`
      milliseconds, and the number of samples. A negative gap length makes
      `np.zeros` raise; a zero rate divides by zero in the time column. */
  function CreateTrainingCsv(segs: seq<Signal>, fs: real): (r: Result<(TrainingTable, nat)>)
    ensures r.Ok? <==> 0 <= Trunc(0.1 * fs) && fs != 0.0
    ensures r.Ok? ==> |r.value.0.time| == |r.value.0.value| == r.value.1
  {
    var gapLen := Trunc(0.1 * fs);
    if gapLen < 0 then Err(NegativeDimension)
    else if fs == 0.0 then Err(ZeroDivision)
    else
      var combined := Join(segs, Zeros(gapLen));
      Ok((TrainingTable(seq(|combined|, i => i as real * (1000.0 / fs)), combined), |combined|))
  }

  /** The returned sample count is the segment lengths plus one gap of
      `int(0.1 * fs)` samples per consecutive pair (0 for no segments). */
  lemma TrainingCsvLength(segs: seq<Signal>, fs: real)
    requires CreateTrainingCsv(segs, fs).Ok?
    ensures |segs| == 0 ==> CreateTrainingCsv(segs, fs).value.1 == 0
    ensures |segs| > 0 ==> CreateTrainingCsv(segs, fs).value.1 == SumLengths(segs) + Trunc(0.1 * fs) * (|segs| - 1)
  {
    var gap := Zeros(Trunc(0.1 * fs));
    JoinLength(segs, gap);
    assert CreateTrainingCsv(segs, fs).value.1 == |Join(segs, gap)|;
  }

  /** The time column runs at `1000 / fs` milliseconds per sample. */
  lemma TrainingCsvTimes(segs: seq<Signal>, fs: real)
    requires CreateTrainingCsv(segs, fs).Ok?
    ensures forall i :: 0 <= i < |CreateTrainingCsv(segs, fs).value.0.time| ==>
              CreateTrainingCsv(segs, fs).value.0.time[i] * fs == 1000.0 * i as real
  {
    var t := CreateTrainingCsv(segs, fs).value.0.time;
    forall i | 0 <= i < |t|
      ensures t[i] * fs == 1000.0 * i as real
    {
      MillisecondsAt(t[i], i as real, fs);
    }
  }

  lemma MillisecondsAt(t: real, i: real, fs: real)
    requires fs != 0.0 && t == i * (1000.0 / fs)
    ensures t * fs == 1000.0 * i
  {
  }

  /** Segment i of the combined signal starts at offset
      `sum_{j<i} (len_j + gap)` and is the segment unchanged, and the gap
      after every segment but the last is all zeros. */
  lemma TrainingCsvLayout(segs: seq<Signal>, fs: real, i: nat)
    requires CreateTrainingCsv(segs, fs).Ok?
    requires i < |segs|
    ensures var v := CreateTrainingCsv(segs, fs).value.0.value;
            var off := Offset(segs, Trunc(0.1 * fs), i);
            off + |segs[i]| <= |v| && v[off..off + |segs[i]|] == segs[i]
    ensures var v := CreateTrainingCsv(segs, fs).value.0.value;
            var g := Trunc(0.1 * fs);
            var off := Offset(segs, g, i);
            i + 1 < |segs| ==>
              off + |segs[i]| + g <= |v| &&
              Constant(v[off + |segs[i]|..off + |segs[i]| + g], 0.0)
  {
    JoinLayout(segs, Zeros(Trunc(0.1 * fs)), i);
  }

  // ---------------------------------------------------------------------
  // The whole run

  /** What one record contributes: nothing unless its files were fetched. */
  function RecordSegments(d: Download): seq<Signal>
  {
    match d
    case Downloaded(f) => ExtractNormalSegments(f).0
    case _ => []
  }

  /** No record of `ids` makes the download raise. */
  predicate NoneRaised(fetch: string -> Download, ids: seq<string>)
  {
    forall i :: 0 <= i < |ids| ==> !fetch(ids[i]).DownloadRaised?
  }

  /** The aggregation loop over `ids`: extend by each downloaded record's
      segments and take its rate, skip a record whose download failed, and
      stop with the exception when a download raises. */
  function Collect(fetch: string -> Download, ids: seq<string>): (r: Result<(seq<Signal>, real)>)
    ensures r.Err? <==> !NoneRaised(fetch, ids)
    ensures r.Err? ==> r.fault == RequestRaised
  {
    if |ids| == 0 then Ok(([], FallbackRate))
    else
      var prev :- Collect(fetch, ids[..|ids| - 1]);
      assert forall i :: 0 <= i < |ids| - 1 ==> ids[..|ids| - 1][i] == ids[i];
      match fetch(ids[|ids| - 1])
      case DownloadRaised => Err(RequestRaised)
      case DownloadFailed => Ok(prev)
      case Downloaded(f) =>
        var (segs, fs) := ExtractNormalSegments(f);
        Ok((prev.0 + segs, fs))
  }

  /** When no download raises, the aggregated list is the per-record lists
      concatenated in record order; a failed download contributes nothing. */
  lemma {:induction false} CollectConcatenates(fetch: string -> Download, ids: seq<string>)
    requires NoneRaised(fetch, ids)
    ensures Collect(fetch, ids).Ok?
    ensures Collect(fetch, ids).value.0 == Flatten(seq(|ids|, i requires 0 <= i < |ids| => RecordSegments(fetch(ids[i]))))
  {
    if |ids| > 0 {
      var n := |ids|;
      assert forall i :: 0 <= i < n - 1 ==> ids[..n - 1][i] == ids[i];
      CollectConcatenates(fetch, ids[..n - 1]);
      var prev := Collect(fetch, ids[..n - 1]).value;
      assert Collect(fetch, ids).value.0 == prev.0 + RecordSegments(fetch(ids[n - 1]));
      var all := seq(n, i requires 0 <= i < n => RecordSegments(fetch(ids[i])));
      assert all[..n - 1] == seq(n - 1, i requires 0 <= i < n - 1 => RecordSegments(fetch(ids[..n - 1][i])));
      assert Flatten(all) == Flatten(all[..n - 1]) + all[n - 1];
    }
  }

  /** When every download fails nothing is collected and the rate stays at
      360 Hz. */
  lemma {:induction false} CollectNothing(fetch: string -> Download, ids: seq<string>)
    requires forall i :: 0 <= i < |ids| ==> fetch(ids[i]).DownloadFailed?
    ensures Collect(fetch, ids) == Ok(([], FallbackRate))
  {
    if |ids| > 0 {
      var n := |ids|;
      assert forall i :: 0 <= i < n - 1 ==> ids[..n - 1][i] == ids[i];
      CollectNothing(fetch, ids[..n - 1]);
    }
  }

  /** The rate handed to the CSV builder is the one returned for the most
      recently downloaded record: later failed downloads leave it alone. */
  lemma {:induction false} CollectRate(fetch: string -> Download, ids: seq<string>, i: nat)
    requires NoneRaised(fetch, ids)
    requires i < |ids| && fetch(ids[i]).Downloaded?
    requires forall j :: i < j < |ids| ==> fetch(ids[j]).DownloadFailed?
    ensures Collect(fetch, ids).Ok?
    ensures Collect(fetch, ids).value.1 == ExtractNormalSegments(fetch(ids[i]).files).1
  {
    var n := |ids|;
    if i < n - 1 {
      assert forall j :: 0 <= j < n - 1 ==> ids[..n - 1][j] == ids[j];
      CollectRate(fetch, ids[..n - 1], i);
    }
  }

  /** The aggregation loop of the script. */
  method CollectLoop(fetch: string -> Download, ids: seq<string>) returns (r: Result<(seq<Signal>, real)>)
    ensures r == Collect(fetch, ids)
  {
    var all := [];
    var rate := FallbackRate;
    var i := 0;
    while i < |ids|
      invariant 0 <= i <= |ids|
      invariant Collect(fetch, ids[..i]) == Ok((all, rate))
    {
      assert ids[..i + 1][..i] == ids[..i];
      match fetch(ids[i]) {
        case DownloadRaised =>
          assert !NoneRaised(fetch, ids);
          return Err(RequestRaised);
        case DownloadFailed =>
        case Downloaded(f) =>
          var (segs, fs) := ExtractNormalSegments(f);
          all := all + segs;
          rate := fs;
      }
      i := i + 1;
    }
    assert ids[..i] == ids;
    r := Ok((all, rate));
  }

  /** The script's run over the records `ids`: aborted when a download
      raises, no CSV when no segment was extracted, otherwise the CSV built
      from all segments at the last downloaded record's rate. */
  function RunOver(fetch: string -> Download, ids: seq<string>): (r: RunOutcome)
    ensures r.Aborted? <==> !NoneRaised(fetch, ids)
    ensures r.NoSegments? <==> Collect(fetch, ids).Ok? && Collect(fetch, ids).value.0 == []
    ensures r.Created? ==> Collect(fetch, ids).Ok?
    ensures r.Created? ==> r.segments == Collect(fetch, ids).value.0 && |r.segments| > 0
    ensures r.Created? ==> r.rate == Collect(fetch, ids).value.1
    ensures r.Created? ==> CreateTrainingCsv(r.segments, r.rate) == Ok((r.table, r.total))
    ensures r.Created? <==>
              Collect(fetch, ids).Ok? && Collect(fetch, ids).value.0 != [] &&
              CreateTrainingCsv(Collect(fetch, ids).value.0, Collect(fetch, ids).value.1).Ok?
    ensures r.Failed? ==>
              Collect(fetch, ids).Ok? && Collect(fetch, ids).value.0 != [] &&
              CreateTrainingCsv(Collect(fetch, ids).value.0, Collect(fetch, ids).value.1) == Err(r.fault)
  {
    match Collect(fetch, ids)
    case Err(_) => Aborted
    case Ok((all, rate)) =>
      if |all| == 0 then NoSegments
      else
        var csv := CreateTrainingCsv(all, rate);
        if csv.Err? then Failed(csv.fault) else Created(all, rate, csv.value.0, csv.value.1)
  }

  /** `main`: the run over the ten normal-rhythm records. */
  function Run(fetch: string -> Download): RunOutcome
  {
    RunOver(fetch, NormalRecords)
  }

  /** When every one of the ten downloads fails the run writes no CSV. */
  lemma NoDownloadsNoCsv(fetch: string -> Download)
    requires forall i :: 0 <= i < |NormalRecords| ==> fetch(NormalRecords[i]).DownloadFailed?
    ensures Run(fetch) == NoSegments
  {
    CollectNothing(fetch, NormalRecords);
  }

  /** A run that writes a CSV reports the gap-joined length of all the
      aggregated segments, with gaps of `int(0.1 * rate)` samples. */
  lemma RunTotal(fetch: string -> Download, ids: seq<string>)
    requires RunOver(fetch, ids).Created?
    ensures var run := RunOver(fetch, ids);
            run.total == SumLengths(run.segments) + Trunc(0.1 * run.rate) * (|run.segments| - 1)
  {
    var run := RunOver(fetch, ids);
    CsvTotal(run.segments, run.rate, run.total);
  }

  /** The count of a built CSV over at least one segment. */
  lemma CsvTotal(segs: seq<Signal>, fs: real, total: nat)
    requires CreateTrainingCsv(segs, fs).Ok? && total == CreateTrainingCsv(segs, fs).value.1
    requires |segs| > 0
    ensures total == SumLengths(segs) + Trunc(0.1 * fs) * (|segs| - 1)
  {
    TrainingCsvLength(segs, fs);
  }

  /** A run in which no download raises, some segment was collected and the
      rate passed on is positive (360 Hz for MIT-BIH) writes its CSV. */
  lemma PositiveRateRunCreates(fetch: string -> Download, ids: seq<string>)
    requires NoneRaised(fetch, ids)
    requires Collect(fetch, ids).Ok? && Collect(fetch, ids).value.0 != [] && Collect(fetch, ids).value.1 > 0.0
    ensures RunOver(fetch, ids).Created?
    ensures RunOver(fetch, ids).segments == Collect(fetch, ids).value.0
  {
    var rate := Collect(fetch, ids).value.1;
    assert 0 <= Trunc(0.1 * rate);
  }

  /** Without a connection every request raises, so the run aborts on the
      first record and never reaches the "check your internet connection"
      message, which is printed only when every record fails with a
      non-200 status. */
  lemma OfflineRunAborts(fetch: string -> Download)
    requires forall i :: 0 <= i < |NormalRecords| ==> fetch(NormalRecords[i]).DownloadRaised?
    ensures Run(fetch) == Aborted
    ensures Run(fetch) != NoSegments
  {
    assert fetch(NormalRecords[0]).DownloadRaised?;
  }

  /** A fetch whose raising downloads count as failed ones, as a `try`
      around the download would make them. */
  function Skipping(fetch: string -> Download): (g: string -> Download)
    ensures forall id :: !g(id).DownloadRaised?
    ensures forall id :: !fetch(id).DownloadRaised? ==> g(id) == fetch(id)
    ensures forall id :: fetch(id).DownloadRaised? ==> g(id) == DownloadFailed
  {
    id => if fetch(id).DownloadRaised? then DownloadFailed else fetch(id)
  }

  /** The run with unreachable records skipped like failed ones: it never
      aborts. */
  function RunSkippingRaised(fetch: string -> Download): (r: RunOutcome)
    ensures !r.Aborted?
  {
    var g := Skipping(fetch);
    assert NoneRaised(g, NormalRecords);
    Run(g)
  }

  /** With downloads skipped on an exception, a run without a single
      fetched record ends in the "no normal segments" branch. */
  lemma OfflineRunReportsNoSegments(fetch: string -> Download)
    requires forall i :: 0 <= i < |NormalRecords| ==> !fetch(NormalRecords[i]).Downloaded?
    ensures RunSkippingRaised(fetch) == NoSegments
  {
    var g := Skipping(fetch);
    assert forall i :: 0 <= i < |NormalRecords| ==> g(NormalRecords[i]).DownloadFailed?;
    NoDownloadsNoCsv(g);
  }
}

=== FILE: preprocess.dfy ===
/** The signal-conditioning steps of `backend/model/preprocess.py` that are
    integer and index bookkeeping: standardisation, the length and rate
    contract of resampling, and fixed-length overlapping windowing. */
module Preprocess {
  import opened Builtins
  import opened Signals

  /** The floor added to the standard deviation so that a flat signal is
      never divided by zero. */
  const Epsilon: real := 0.00000001

  /** The canonical rate every signal is resampled to, in Hz. */
  const CanonicalRate: real := 250.0

  /** Default window length and window step, in seconds. */
  const DefaultWinSec: real := 2.0
  const DefaultStepSec: real := 1.0

  // ---------------------------------------------------------------------
  // standardize

  /** `(signal - mean) / (std + 1e-8)`, where `sd` is the population
      standard deviation numpy computed (any nonnegative number here). */
  function Standardize(s: Signal, sd: real): (r: Signal)
    requires 0.0 <= sd
    ensures |r| == |s|
  {
    Affine(s, Mean(s), sd + Epsilon)
  }

  /** Standardisation is strictly increasing in each sample: it preserves
      both the order and the ties between any two samples. */
  lemma StandardizePreservesOrder(s: Signal, sd: real, i: nat, j: nat)
    requires 0.0 <= sd
    requires i < |s| && j < |s|
    ensures s[i] <= s[j] <==> Standardize(s, sd)[i] <= Standardize(s, sd)[j]
    ensures s[i] < s[j] <==> Standardize(s, sd)[i] < Standardize(s, sd)[j]
  {
    var m := Mean(s);
    var d := sd + Epsilon;
    DivMonotone(s[i] - m, s[j] - m, d);
    DivMonotone(s[j] - m, s[i] - m, d);
  }

  lemma DivMonotone(x: real, y: real, d: real)
    requires d > 0.0
    ensures x <= y <==> x / d <= y / d
  {
    if x <= y {
      assert y / d - x / d == (y - x) / d;
    } else {
      assert x / d - y / d == (x - y) / d;
    }
  }

  /** A flat signal standardises to all zeros: the epsilon floor keeps the
      divisor positive even when the standard deviation is zero. */
  lemma {:induction false} StandardizeConstant(s: Signal, c: real, sd: real)
    requires 0.0 <= sd
    requires Constant(s, c)
    ensures Constant(Standardize(s, sd), 0.0)
  {
    if |s| > 0 {
      SumConstant(s, c);
      assert Mean(s) == c;
    }
  }

  /** The standardised samples sum to zero, so their mean is zero. */
  lemma StandardizeZeroMean(s: Signal, sd: real)
    requires 0.0 <= sd
    ensures Sum(Standardize(s, sd)) == 0.0
    ensures Mean(Standardize(s, sd)) == 0.0
  {
    MeanRemoved(s, sd + Epsilon);
  }

  /** When `sd` is the population standard deviation of the signal, the
      standardised signal has variance `(sd / (sd + 1e-8))^2`: strictly
      below 1 because of the epsilon floor, and 0 for a flat signal. */
  lemma StandardizeVariance(s: Signal, sd: real)
    requires 0.0 <= sd && Square(sd) == Variance(s)
    ensures Variance(Standardize(s, sd)) == Square(sd / (sd + Epsilon))
    ensures Variance(Standardize(s, sd)) < 1.0
  {
    DividedVariance(s, sd, sd + Epsilon);
  }

  /** Centring and dividing by any `d` above the standard deviation leaves
      a variance of `(sd / d)^2 < 1`. */
  lemma DividedVariance(s: Signal, sd: real, d: real)
    requires 0.0 <= sd < d && Square(sd) == Variance(s)
    ensures Variance(Affine(s, Mean(s), d)) == Square(sd / d)
    ensures Square(sd / d) < 1.0
  {
    AffineVariance(s, d);
    ShrunkVariance(Variance(Affine(s, Mean(s), d)), Variance(s), sd, d);
  }

  /** The arithmetic of that last step, on plain numbers. */
  lemma ShrunkVariance(v: real, vs: real, a: real, d: real)
    requires 0.0 <= a < d
    requires v == vs * Square(1.0 / d) && vs == Square(a)
    ensures v == Square(a / d) && v < 1.0
  {
    SquaredRatio(v, vs, a, d);
    RatioBelowOne(a, d);
  }

  /** Scaling a variance of `a * a` by `(1 / d)^2` gives `(a / d)^2`. */
  lemma SquaredRatio(v: real, vs: real, a: real, d: real)
    requires d != 0.0
    requires v == vs * Square(1.0 / d) && vs == Square(a)
    ensures v == Square(a / d)
  {
    var k := 1.0 / d;
    DivIsMulInverse(a, d);
    assert (a * a) * (k * k) == (a * k) * (a * k);
  }

  /** For `0 <= a < b` the square of `a / b` is below 1. */
  lemma RatioBelowOne(a: real, b: real)
    requires 0.0 <= a < b
    ensures Square(a / b) < 1.0
  {
    var t := a / b;
    assert 0.0 <= t < 1.0;
    if 0.0 < t {
      MulRealStrict(t, 1.0, t);
    }
  }

  /** Standardisation loses no information: scaling back by `sd + 1e-8`
      and adding the mean recovers every original sample. */
  lemma StandardizeInvertible(s: Signal, sd: real, i: nat)
    requires 0.0 <= sd
    requires i < |s|
    ensures Standardize(s, sd)[i] * (sd + Epsilon) + Mean(s) == s[i]
  {
  }

  // ---------------------------------------------------------------------
  // resample_to

  /** `resample_to(signal, fs_in, fs_out)`: the signal unchanged with rate
      `fs_in` when the rates already agree; otherwise
      `int(len * fs_out / fs_in)` samples at rate `fs_out`. The sample values
      of the FFT resampler are the parameter `valueAt(signal, n, k)` (the
      k-th of n output samples); only the length and rate are modelled. A
      zero input rate divides by zero, and the resampler refuses an output
      of fewer than one sample. */
  function ResampleTo(s: Signal, fsIn: real, fsOut: real, valueAt: (Signal, nat, nat) -> real)
    : (r: Result<(Signal, real)>)
    ensures fsIn == fsOut ==> r == Ok((s, fsIn))
    ensures r.Ok? ==> r.value.1 == fsOut
    ensures fsIn != fsOut && fsIn == 0.0 ==> r == Err(ZeroDivision)
    ensures fsIn != fsOut && fsIn != 0.0 ==>
              (r.Ok? <==> Trunc(|s| as real * fsOut / fsIn) >= 1)
    ensures fsIn != fsOut && r.Ok? ==> |r.value.0| == Trunc(|s| as real * fsOut / fsIn)
  {
    if fsIn == fsOut then Ok((s, fsIn))
    else if fsIn == 0.0 then Err(ZeroDivision)
    else
      var n := Trunc(|s| as real * fsOut / fsIn);
      if n < 1 then Err(BadResampleLength)
      else Ok((seq(n, k requires 0 <= k < n => valueAt(s, n, k)), fsOut))
  }

  /** With positive rates the resampled length is the largest sample count
      whose duration at `fs_out` does not exceed the input's duration at
      `fs_in`: `n * fs_in <= len * fs_out < (n + 1) * fs_in`. */
  lemma ResampledDuration(s: Signal, fsIn: real, fsOut: real, valueAt: (Signal, nat, nat) -> real)
    requires 0.0 < fsIn && 0.0 < fsOut && fsIn != fsOut
    requires ResampleTo(s, fsIn, fsOut, valueAt).Ok?
    ensures var n := |ResampleTo(s, fsIn, fsOut, valueAt).value.0| as real;
            n * fsIn <= |s| as real * fsOut < (n + 1.0) * fsIn
  {
    var l := |s| as real * fsOut;
    var x := l / fsIn;
    assert 0.0 <= l;
    assert 0.0 <= x;
    var n := Trunc(x);
    assert |ResampleTo(s, fsIn, fsOut, valueAt).value.0| == n;
    DurationBracket(n as real, x, l, fsIn);
  }

  /** `n <= l / f < n + 1` multiplied through by a positive `f`. */
  lemma DurationBracket(n: real, x: real, l: real, f: real)
    requires 0.0 < f && x == l / f && n <= x < n + 1.0
    ensures n * f <= l < (n + 1.0) * f
  {
    MulRealMono(n, x, f);
    MulRealStrict(x, n + 1.0, f);
    assert x * f == l;
  }

  lemma MulRealMono(a: real, b: real, c: real)
    requires a <= b && 0.0 < c
    ensures a * c <= b * c
  {
    assert b * c - a * c == (b - a) * c;
  }

  lemma MulRealStrict(a: real, b: real, c: real)
    requires a < b && 0.0 < c
    ensures a * c < b * c
  {
    assert b * c - a * c == (b - a) * c;
  }

  // ---------------------------------------------------------------------
  // make_windows_fixed

  /** The slices the windowing loop collects, one `signal[start:start+win]`
      per start. */
  function Cut(s: Signal, starts: seq<int>, win: int): (ws: seq<Signal>)
    ensures |ws| == |starts|
  {
    seq(|starts|, k requires 0 <= k < |starts| => Slice(s, starts[k], starts[k] + win))
  }

  /** Rows that `np.array` can stack into a two-dimensional array: all of
      the same length. */
  predicate Rectangular(ws: seq<Signal>)
  {
    forall k :: 0 <= k < |ws| ==> |ws[k]| == |ws[0]|
  }

  /** The windowing loop on sample counts, one slice for every `start` in
      `range(0, len(signal) - win + 1, step)`, followed by `np.array`,
      which raises when the slices differ in length. */
  function Windows(s: Signal, win: int, step: int): (r: Result<seq<Signal>>)
    ensures r == Err(ZeroStep) <==> step == 0
    ensures r.Err? ==> r.fault == ZeroStep || r.fault == RaggedArray
    ensures r.Ok? ==> Rectangular(r.value)
  {
    var starts :- Range(0, |s| - win + 1, step);
    var ws := Cut(s, starts, win);
    if Rectangular(ws) then Ok(ws) else Err(RaggedArray)
  }

  /** `make_windows_fixed(signal, fs, win_sec, step_sec)`: window and step
      lengths are `int(win_sec * fs)` and `int(step_sec * fs)` samples. */
  function MakeWindowsFixed(s: Signal, fs: real, winSec: real, stepSec: real): (r: Result<seq<Signal>>)
    ensures r == Err(ZeroStep) <==> Trunc(stepSec * fs) == 0
    ensures r.Err? ==> r.fault == ZeroStep || r.fault == RaggedArray
    ensures r.Ok? ==> Rectangular(r.value)
  {
    Windows(s, Trunc(winSec * fs), Trunc(stepSec * fs))
  }

  /** With a nonnegative window length and a positive step every start
      leaves room for a whole window, so all slices have `win` samples and
      stacking them never raises. */
  lemma WholeWindowsStack(s: Signal, win: int, step: int)
    requires 0 <= win && 0 < step
    ensures Windows(s, win, step).Ok?
  {
    var starts := Range(0, |s| - win + 1, step).value;
    var ws := Cut(s, starts, win);
    forall k | 0 <= k < |ws|
      ensures |ws[k]| == win
    {
      RangeLengthExact(0, |s| - win + 1, step, k);
      assert starts[k] == k * step;
    }
  }

  /** A negative step runs the start range downwards, so a signal shorter
      than one window can still yield a window: three samples with
      `win = 5` and `step = -1` give `range(0, -1, -1) == [0]` and the one
      clamped slice `signal[0:5]` of three samples. */
  lemma NegativeStepPartialWindow()
    ensures Windows([1.0, 2.0, 3.0], 5, -1) == Ok([[1.0, 2.0, 3.0]])
  {
    var s := [1.0, 2.0, 3.0];
    assert RangeLength(0, -1, -1) == 1;
    var starts := Range(0, -1, -1).value;
    assert starts == [0];
    assert Slice(s, 0, 5) == s;
    var ws := Cut(s, starts, 5);
    assert ws == [s];
    assert Rectangular(ws);
  }

  /** A window length that truncates to a negative number makes the slices
      ragged and `np.array` raise: five samples at 1 Hz with
      `win_sec = -2` give `win = -2`, and `signal[0:-2]` has three samples
      while `signal[2:0]` has none. */
  lemma NegativeWindowRaises()
    ensures MakeWindowsFixed([0.0, 0.0, 0.0, 0.0, 0.0], 1.0, -2.0, 1.0) == Err(RaggedArray)
  {
    var s := [0.0, 0.0, 0.0, 0.0, 0.0];
    assert Trunc(-2.0 * 1.0) == -2 && Trunc(1.0 * 1.0) == 1;
    var starts := Range(0, 8, 1).value;
    assert |starts| == 8 && starts[0] == 0 && starts[2] == 2;
    var ws := Cut(s, starts, -2);
    assert |ws[0]| == 3;
    assert ws[2] == [];
    assert !Rectangular(ws);
  }

  /** Real-valued window and step lengths that truncate to a nonnegative
      window and a positive step always give a stackable array. */
  lemma MakeWindowsFixedStacks(s: Signal, fs: real, winSec: real, stepSec: real)
    requires 0.0 <= winSec * fs && 1.0 <= stepSec * fs
    ensures MakeWindowsFixed(s, fs, winSec, stepSec).Ok?
  {
    WholeWindowsStack(s, Trunc(winSec * fs), Trunc(stepSec * fs));
  }

  /** How many whole windows of `win` samples, `step` apart, fit in `n`
      samples. */
  function WindowCount(n: nat, win: nat, step: nat): nat
    requires step > 0
  {
    if n < win then 0 else (n - win) / step + 1
  }

  /** Window k exists exactly when the slice `signal[k*step .. k*step + win]`
      ends within the signal, and then it is that slice. */
  lemma {:induction false} WindowAt(s: Signal, win: int, step: int, k: nat)
    requires 0 <= win && 0 < step
    ensures Windows(s, win, step).Ok?
    ensures k < |Windows(s, win, step).value| <==> k * step + win <= |s|
    ensures k < |Windows(s, win, step).value| ==>
              Windows(s, win, step).value[k] == s[k * step..k * step + win]
  {
    WholeWindowsStack(s, win, step);
    RangeLengthExact(0, |s| - win + 1, step, k);
  }

  /** With a nonnegative window length and a positive step, the windows are
      exactly the whole slices `signal[k*step .. k*step + win]`, for every
      k whose slice ends within the signal and for no other k: there are
      `WindowCount` of them, and no trailing partial window. */
  lemma WindowsAreWholeSlices(s: Signal, win: int, step: int)
    requires 0 <= win && 0 < step
    ensures Windows(s, win, step).Ok?
    ensures |Windows(s, win, step).value| == WindowCount(|s|, win, step)
    ensures forall k: nat :: k < |Windows(s, win, step).value| <==> k * step + win <= |s|
    ensures forall k :: 0 <= k < |Windows(s, win, step).value| ==>
              Windows(s, win, step).value[k] == s[k * step..k * step + win]
  {
    WholeWindowsStack(s, win, step);
    var ws := Windows(s, win, step).value;
    forall k: nat
      ensures k < |ws| <==> k * step + win <= |s|
      ensures k < |ws| ==> ws[k] == s[k * step..k * step + win]
    {
      WindowAt(s, win, step, k);
    }
    var stop := |s| - win + 1;
    if |s| < win {
      assert |ws| == 0;
    } else {
      assert |ws| == RangeLength(0, stop, step);
    }
  }

  /** Every window has exactly `win` samples and lies wholly inside the
      signal, starting `k * step` samples in. */
  lemma WindowsHaveFixedLength(s: Signal, win: int, step: int, k: nat)
    requires 0 <= win && 0 < step
    requires Windows(s, win, step).Ok?  // always so, by WholeWindowsStack
    requires k < |Windows(s, win, step).value|
    ensures k * step + win <= |s|
    ensures |Windows(s, win, step).value[k]| == win
    ensures Windows(s, win, step).value[k] == s[k * step..k * step + win]
  {
    WindowAt(s, win, step, k);
  }

  /** Consecutive windows overlap by `win - step` samples: the tail of
      window k after its first `step` samples is the head of window k + 1. */
  lemma WindowsOverlap(s: Signal, win: int, step: int, k: nat)
    requires 0 < step <= win
    requires Windows(s, win, step).Ok?  // always so, by WholeWindowsStack
    requires k + 1 < |Windows(s, win, step).value|
    ensures |Windows(s, win, step).value[k]| == |Windows(s, win, step).value[k + 1]| == win
    ensures Windows(s, win, step).value[k][step..] == Windows(s, win, step).value[k + 1][..win - step]
  {
    var ws := Windows(s, win, step).value;
    assert ws[k] == s[k * step..k * step + win] by {
      WindowAt(s, win, step, k);
    }
    assert (k + 1) * step + win <= |s| && ws[k + 1] == s[(k + 1) * step..(k + 1) * step + win] by {
      WindowAt(s, win, step, k + 1);
    }
    NextStart(k, step);
    SlicesOverlap(s, k * step, (k + 1) * step, step, win);
  }

  lemma NextStart(k: int, step: int)
    ensures (k + 1) * step == k * step + step
  {
  }

  /** Two slices of `win` samples starting `step` apart share `win - step`
      samples. */
  lemma SlicesOverlap(s: Signal, a: int, b: int, step: int, win: int)
    requires 0 <= a && b == a + step && 0 < step <= win && b + win <= |s|
    ensures s[a..a + win][step..] == s[b..b + win][..win - step]
  {
    assert s[a..a + win][step..] == s[b..a + win];
  }

  /** A step of zero samples (`step_sec * fs < 1`) makes `range` raise. */
  lemma ZeroStepRaises(s: Signal, fs: real, winSec: real, stepSec: real)
    requires 0.0 <= stepSec * fs < 1.0
    ensures MakeWindowsFixed(s, fs, winSec, stepSec) == Err(ZeroStep)
  {
  }

  /** At 250 Hz the defaults give 500-sample windows every 250 samples, so
      consecutive windows share half their samples, and a signal of n >= 500
      samples yields `(n - 500) / 250 + 1` windows (none below 500). */
  lemma DefaultWindowing(s: Signal)
    ensures Trunc(DefaultWinSec * CanonicalRate) == 500
    ensures Trunc(DefaultStepSec * CanonicalRate) == 250
    ensures MakeWindowsFixed(s, CanonicalRate, DefaultWinSec, DefaultStepSec).Ok?
    ensures |s| < 500 ==> MakeWindowsFixed(s, CanonicalRate, DefaultWinSec, DefaultStepSec).value == []
    ensures |s| >= 500 ==>
              |MakeWindowsFixed(s, CanonicalRate, DefaultWinSec, DefaultStepSec).value| == (|s| - 500) / 250 + 1
    ensures forall k :: 0 <= k < |MakeWindowsFixed(s, CanonicalRate, DefaultWinSec, DefaultStepSec).value| ==>
              |MakeWindowsFixed(s, CanonicalRate, DefaultWinSec, DefaultStepSec).value[k]| == 500
    ensures forall k :: 0 <= k && k + 1 < |MakeWindowsFixed(s, CanonicalRate, DefaultWinSec, DefaultStepSec).value| ==>
              MakeWindowsFixed(s, CanonicalRate, DefaultWinSec, DefaultStepSec).value[k][250..] ==
              MakeWindowsFixed(s, CanonicalRate, DefaultWinSec, DefaultStepSec).value[k + 1][..250]
  {
    assert DefaultWinSec * CanonicalRate == 500.0;
    assert DefaultStepSec * CanonicalRate == 250.0;
    WindowsAreWholeSlices(s, 500, 250);
    var ws := Windows(s, 500, 250).value;
    forall k | 0 <= k < |ws|
      ensures |ws[k]| == 500
    {
      WindowsHaveFixedLength(s, 500, 250, k);
    }
    forall k | 0 <= k && k + 1 < |ws|
      ensures ws[k][250..] == ws[k + 1][..250]
    {
      WindowsOverlap(s, 500, 250, k);
    }
  }
}

=== FILE: seqs.dfy ===
/** Order-preserving filtering, the shape of every "for x in xs: if keep(x):
    out.append(...)" loop in the data-preparation code. */
module Seqs {

  /** The elements of `s` that satisfy `keep`, in their original order. */
  function Select<T>(s: seq<T>, keep: T -> bool): (r: seq<T>)
    ensures |r| <= |s|
    ensures forall x :: x in r ==> x in s && keep(x)
  {
    if |s| == 0 then []
    else Select(s[..|s| - 1], keep) + (if keep(s[|s| - 1]) then [s[|s| - 1]] else [])
  }

  /** The positions in `s` that `Select` keeps, in increasing order. */
  function SelectedPositions<T>(s: seq<T>, keep: T -> bool): seq<nat>
  {
    if |s| == 0 then []
    else SelectedPositions(s[..|s| - 1], keep) + (if keep(s[|s| - 1]) then [|s| - 1] else [])
  }

  /** `Select` keeps exactly the elements satisfying `keep` and nothing else,
      each once, in the order they appear: the k-th kept element sits at the
      k-th selected position, positions strictly increase, and a position is
      selected exactly when its element satisfies `keep`. */
  lemma {:induction false} SelectIsOrderedFilter<T>(s: seq<T>, keep: T -> bool)
    ensures |SelectedPositions(s, keep)| == |Select(s, keep)|
    ensures forall k :: 0 <= k < |Select(s, keep)| ==>
              SelectedPositions(s, keep)[k] < |s| && Select(s, keep)[k] == s[SelectedPositions(s, keep)[k]]
    ensures forall k, l :: 0 <= k < l < |SelectedPositions(s, keep)| ==>
              SelectedPositions(s, keep)[k] < SelectedPositions(s, keep)[l]
    ensures forall i :: 0 <= i < |s| ==> (keep(s[i]) <==> i in SelectedPositions(s, keep))
  {
    if |s| > 0 {
      var n := |s|;
      var init := s[..n - 1];
      SelectIsOrderedFilter(init, keep);
      var p := SelectedPositions(s, keep);
      var p0 := SelectedPositions(init, keep);
      assert forall k :: 0 <= k < |p0| ==> p0[k] < n - 1;
      forall i | 0 <= i < n
        ensures keep(s[i]) <==> i in p
      {
        if i < n - 1 {
          assert s[i] == init[i];
        }
      }
    }
  }

  /** Applies `f` to every element. */
  function Map<T, U>(s: seq<T>, f: T -> U): (r: seq<U>)
    ensures |r| == |s|
    ensures forall k :: 0 <= k < |s| ==> r[k] == f(s[k])
  {
    seq(|s|, k requires 0 <= k < |s| => f(s[k]))
  }

  /** Concatenates a sequence of sequences in order. */
  function Flatten<T>(ss: seq<seq<T>>): seq<T>
  {
    if |ss| == 0 then [] else Flatten(ss[..|ss| - 1]) + ss[|ss| - 1]
  }
}

=== FILE: signals.dfy ===
/** Sampled signals as sequences of reals, with the aggregate statistics
    numpy computes over them (`np.mean`) and the elementwise affine map
    `(signal - c) / d` that numpy broadcasting performs. */
module Signals {

  // Several lemmas below are "step" lemmas over plain `real` parameters
  // (`ScaledShift`, `ShiftStep`, `ScaleStep`, `ScaledSquareStep`,
  // `DivideScaled`): each carries one step of an induction on sums, with
  // the sums passed in as numbers, so that the inductive proof next to it
  // stays a few lines of sequence reasoning.

  /** One lead of an EKG, one sample per time step. */
  type Signal = seq<real>

  function Sum(s: Signal): real
  {
    if |s| == 0 then 0.0 else Sum(s[..|s| - 1]) + s[|s| - 1]
  }

  /** The arithmetic mean; numpy yields NaN for an empty signal, which only
      ever feeds an elementwise map over zero samples, so 0 stands in. */
  function Mean(s: Signal): real
  {
    if |s| == 0 then 0.0 else Sum(s) / |s| as real
  }

  /** `(signal - c) / d`, sample by sample. */
  function Affine(s: Signal, c: real, d: real): (r: Signal)
    requires d != 0.0
    ensures |r| == |s|
  {
    seq(|s|, i requires 0 <= i < |s| => AffineAt(s[i], c, d))
  }

  /** One sample of `Affine`. */
  function AffineAt(x: real, c: real, d: real): real
    requires d != 0.0
  {
    (x - c) / d
  }

  /** Every sample of `s` equals `c`. */
  predicate Constant(s: Signal, c: real)
  {
    forall i :: 0 <= i < |s| ==> s[i] == c
  }

  /** The sum of a constant signal is its length times the constant. */
  lemma {:induction false} SumConstant(s: Signal, c: real)
    requires Constant(s, c)
    ensures Sum(s) == |s| as real * c
  {
    if |s| > 0 {
      SumConstant(s[..|s| - 1], c);
    }
  }

  /** Summing commutes with the affine map: shifting every sample by `c`
      removes `|s| * c` from the sum, and the divisor factors out. */
  lemma {:induction false} SumAffine(s: Signal, c: real, d: real)
    requires d != 0.0
    ensures Sum(Affine(s, c, d)) == (Sum(s) - |s| as real * c) / d
  {
    SumDivided(s, c, d);
    SumShifted(s, c);
    ScaledShift(Sum(Affine(s, c, d)), Sum(Affine(s, c, 1.0)), Sum(s), |s| as real, c, d);
  }

  /** Dividing every shifted sample by `d` divides their sum by `d`. */
  lemma {:induction false} SumDivided(s: Signal, c: real, d: real)
    requires d != 0.0
    ensures Sum(Affine(s, c, d)) == Times(Sum(Affine(s, c, 1.0)), 1.0 / d)
  {
    AffineIsScaled(s, c, d);
    SumOfScale(Affine(s, c, 1.0), 1.0 / d);
  }

  /** The two steps above, on the sums alone. */
  lemma ScaledShift(sa: real, su: real, ss: real, n: real, c: real, d: real)
    requires d != 0.0
    requires sa == Times(su, 1.0 / d) && su == ss - n * c
    ensures sa == (ss - n * c) / d
  {
    DivIsMulInverse(ss - n * c, d);
  }

  /** Shifting every sample by `c` removes `|s| * c` from the sum. */
  lemma {:induction false} SumShifted(s: Signal, c: real)
    ensures Sum(Affine(s, c, 1.0)) == Sum(s) - |s| as real * c
  {
    if |s| > 0 {
      var n := |s|;
      var a := Affine(s, c, 1.0);
      assert a[..n - 1] == Affine(s[..n - 1], c, 1.0);
      SumShifted(s[..n - 1], c);
      ShiftStep(Sum(a), Sum(a[..n - 1]), a[n - 1], Sum(s), Sum(s[..n - 1]), s[n - 1], |s| as real, |s[..n - 1]| as real, c);
    }
  }

  /** One step of that induction, on the sums alone: `m` samples so far,
      one more appended to make `k`. */
  lemma ShiftStep(e: real, e0: real, y: real, f: real, f0: real, x: real, k: real, m: real, c: real)
    requires k == m + 1.0
    requires e == e0 + y && f == f0 + x
    requires e0 == f0 - m * c && y == AffineAt(x, c, 1.0)
    ensures e == f - k * c
  {
  }

  /** Multiplying every sample by `k` multiplies the sum by `k`. */
  lemma {:induction false} SumOfScale(u: Signal, k: real)
    ensures Sum(Scale(u, k)) == Times(Sum(u), k)
  {
    if |u| > 0 {
      var n := |u|;
      var a := Scale(u, k);
      assert a[..n - 1] == Scale(u[..n - 1], k);
      SumOfScale(u[..n - 1], k);
      ScaleStep(Sum(a), Sum(a[..n - 1]), a[n - 1], Sum(u), Sum(u[..n - 1]), u[n - 1], k);
    }
  }

  lemma ScaleStep(e: real, e0: real, y: real, f: real, f0: real, x: real, k: real)
    requires e == e0 + y && f == f0 + x
    requires e0 == Times(f0, k) && y == Times(x, k)
    ensures e == Times(f, k)
  {
  }

  /** Subtracting the mean leaves a signal whose samples sum to zero. */
  lemma MeanRemoved(s: Signal, d: real)
    requires d != 0.0
    ensures Sum(Affine(s, Mean(s), d)) == 0.0
  {
    SumAffine(s, Mean(s), d);
    if |s| > 0 {
      assert |s| as real * Mean(s) == Sum(s);
    }
  }

  function SumSquares(s: Signal): (r: real)
    ensures 0.0 <= r
  {
    if |s| == 0 then 0.0 else SumSquares(s[..|s| - 1]) + Square(s[|s| - 1])
  }

  function Square(x: real): (r: real)
    ensures 0.0 <= r
  {
    x * x
  }

  /** The population variance (`np.var`, `ddof = 0`): the mean squared
      deviation from the mean. */
  function Variance(s: Signal): real
  {
    MeanSquare(Affine(s, Mean(s), 1.0))
  }

  /** The mean of the squared samples (0 for no samples). */
  function MeanSquare(u: Signal): real
  {
    if |u| == 0 then 0.0 else SumSquares(u) / |u| as real
  }

  lemma DivIsMulInverse(x: real, d: real)
    requires d != 0.0
    ensures x / d == x * (1.0 / d)
  {
  }

  /** Multiplication under a name. Step lemmas below state products as
      `Times(x, k)` so that the solver matches them as terms instead of
      reasoning about them with nonlinear arithmetic. */
  function Times(x: real, k: real): real
  {
    x * k
  }

  /** Every sample multiplied by `k`. */
  function Scale(u: Signal, k: real): (r: Signal)
    ensures |r| == |u|
  {
    seq(|u|, i requires 0 <= i < |u| => Times(u[i], k))
  }

  /** Dividing by `d` is multiplying the undivided map by `1 / d`. */
  lemma AffineIsScaled(s: Signal, c: real, d: real)
    requires d != 0.0
    ensures Affine(s, c, d) == Scale(Affine(s, c, 1.0), 1.0 / d)
  {
    var a := Affine(s, c, d);
    var u := Affine(s, c, 1.0);
    forall i | 0 <= i < |s|
      ensures a[i] == Times(u[i], 1.0 / d)
    {
      AffineAtScaled(s[i], c, d);
    }
  }

  lemma AffineAtScaled(x: real, c: real, d: real)
    requires d != 0.0
    ensures AffineAt(x, c, d) == Times(AffineAt(x, c, 1.0), 1.0 / d)
  {
    DivIsMulInverse(x - c, d);
  }

  /** Multiplying every sample by `k` multiplies the sum of squares by `k * k`. */
  lemma {:induction false} SumSquaresOfScale(u: Signal, k: real)
    ensures SumSquares(Scale(u, k)) == Times(SumSquares(u), Square(k))
  {
    if |u| > 0 {
      var n := |u|;
      var a := Scale(u, k);
      assert a[..n - 1] == Scale(u[..n - 1], k);
      SumSquaresOfScale(u[..n - 1], k);
      ScaledSquareStep(SumSquares(a), SumSquares(a[..n - 1]), a[n - 1], SumSquares(u), SumSquares(u[..n - 1]), u[n - 1], k);
    }
  }

  /** One step of that induction: appending `x * k` to a signal whose sum of
      squares is already scaled by `k * k` keeps it scaled. */
  lemma ScaledSquareStep(e: real, e0: real, y: real, f: real, f0: real, x: real, k: real)
    requires e == e0 + Square(y) && f == f0 + Square(x)
    requires e0 == Times(f0, Square(k)) && y == Times(x, k)
    ensures e == Times(f, Square(k))
  {
    assert y * y == (x * x) * (k * k);
  }

  /** Multiplying every sample by `k` multiplies the mean square by `k * k`. */
  lemma MeanSquareOfScale(u: Signal, k: real)
    ensures MeanSquare(Scale(u, k)) == Times(MeanSquare(u), Square(k))
  {
    if |u| > 0 {
      SumSquaresOfScale(u, k);
      DivideScaled(SumSquares(Scale(u, k)), SumSquares(u), Square(k), |u| as real);
    }
  }

  lemma DivideScaled(e: real, f: real, m: real, n: real)
    requires n != 0.0 && e == Times(f, m)
    ensures e / n == Times(f / n, m)
  {
  }

  /** A signal with the mean removed has mean 0, so its variance is its
      mean square. */
  lemma CenteredVariance(s: Signal, d: real)
    requires d != 0.0
    ensures Variance(Affine(s, Mean(s), d)) == MeanSquare(Affine(s, Mean(s), d))
  {
    var r := Affine(s, Mean(s), d);
    MeanRemoved(s, d);
    assert Mean(r) == 0.0;
    assert Affine(r, Mean(r), 1.0) == r;
  }

  /** Shifting by the mean and dividing by `d` scales the variance by
      `(1 / d)^2`. */
  lemma AffineVariance(s: Signal, d: real)
    requires d != 0.0
    ensures Variance(Affine(s, Mean(s), d)) == Variance(s) * Square(1.0 / d)
  {
    CenteredVariance(s, d);
    AffineIsScaled(s, Mean(s), d);
    MeanSquareOfScale(Affine(s, Mean(s), 1.0), 1.0 / d);
  }
}
